=== FILE: README.md ===
# Markdown editor client core, modelled in Dafny

This project models the client-side logic of a browser markdown editor that
stores documents through a remote document API. The modelled core is its
error-normalisation and state-keeping layer:

- **Error taxonomy** (`errors.dfy`, module `Errors`): the six `ErrorType`
  kinds, the `ApplicationError` record and its `toJSON` form, the
  `ERROR_MESSAGES` table and `getUserFriendlyMessage`.
- **HTTP-failure classifier** (`api.dfy`, module `Api`): the `APIResponse`
  and `CloudDocument` shapes, `parseAPIError` (no response / status code →
  error kind, with its message precedence) and `validateAPIResponse`.
- **Cloud sync** (`cloud_sync.dfy`, module `CloudSync`): the composable's
  state `(isLoading, error, cloudDocuments, lastSyncTime)` and its five
  operations plus `refreshCloudDocuments` and `clearError`. Each operation
  is a pure transition from the state, its arguments, the outcome of the
  remote call (`Replied(response)` or `Threw(rawError)`) and a clock
  reading, to the new state, the returned envelope and the remote call made
  (or none).
- **Error-handler state** (`error_handler.dfy`, module `ErrorHandler`):
  `setError`, `clearError` and `handleError` over `(error, hasError,
  errorMessage)`, with the invariant that the three agree.
- **Log buffer** (`logging.dfy`, module `Logging`): entries at four levels,
  trimmed to the newest 100.
- **Autosave scheduler** (`autosave.dfy`, module `Autosave`): the watcher
  callback, the timer callback, `forceSave` and the unmount hook as events of
  a state machine. The host's timer queue is part of the state, and scheduling
  adds to it without removing anything, as `setTimeout` does. So "at most one
  timer is pending" is proved as an invariant that rests on the watcher clearing
  the previous timer before it schedules the next one.

Supporting modules: `Wrappers` (`Option`, `Result`) and `JsText`
(the ECMAScript whitespace set, `trim`, truthiness of optional strings and
`a || b`).

Two behaviours of the code are modelled as written:

- A falsy document id (`""` or `0`) in load, delete or update throws a
  VALIDATION `ApplicationError` with no `response`. It is caught and
  re-classified by `parseAPIError` as NETWORK, so the recorded error is the
  connectivity message, not "Document ID is required"
  (`CloudSync.MissingIdReadsAsNetworkFailure`). An id of `0` is therefore
  rejected like a missing one.
- `getUserFriendlyMessage` never returns an `ApplicationError`'s own message.
  The table has a non-empty entry for every kind, so the `|| error.message`
  fallback cannot be reached (`Errors.UserMessageDependsOnlyOnKind`).

`getUserFriendlyMessage` returns the canonical UNKNOWN text even for an
UNKNOWN `ApplicationError` that carries a message of its own.

The per-status fallback texts in `parseAPIError` (`message || 'Invalid input
provided'` and the like) are modelled, and `Api.ParseApiError` proves that they
are never used, since the extracted message is never empty.

## Model

| member | source | states |
|---|---|---|
| `Errors.ErrorTypeRoundTrip` | src/types/errors.ts:5-12 | The error kinds are a closed set whose six string values are pairwise distinct: reading a kind's string value back yields that kind, and a string reads as a kind exactly when it is that kind's value. |
| `Errors.NewApplicationError` | src/types/errors.ts:28-40 | The constructed error carries exactly the given kind, message, status and details, with the clock reading as its timestamp. |
| `Errors.ToJson` | src/types/errors.ts:42-50 | The JSON record's kind, message, status, details and timestamp equal the error's own fields. |
| `Errors.JsonRoundTrip` | src/types/errors.ts:28-50 | The constructor keeps type, message, status and details unchanged and `toJSON` copies every field, so an error rebuilt from its JSON record equals the original except for its timestamp, which is the rebuild's clock reading; it is the original exactly when that reading equals the recorded timestamp. Rebuilding an error from a record and serialising it gives the record back with the new timestamp. |
| `Errors.ErrorMessage` | src/types/errors.ts:56-63 | The message table is total: every kind has a non-empty canonical message. |
| `Errors.ErrorMessagesDistinct` | src/types/errors.ts:56-63 | Two kinds share a canonical message only if they are the same kind. |
| `Errors.UserFriendlyMessage` | src/types/errors.ts:68-78 | A string is returned unchanged; an `ApplicationError` yields its kind's canonical message; any other error yields the UNKNOWN canonical message. |
| `Errors.UserMessageDependsOnlyOnKind` | src/types/errors.ts:73-74 | For two `ApplicationError`s the user-facing text is equal exactly when their kinds are equal; their own messages never matter. |
| `Api.BodyMessage` | src/types/api.ts:77 | The extracted message is never empty and follows the precedence body `message`, then body `error`, then "An error occurred", skipping empty strings. |
| `Api.ParseApiError` | src/types/api.ts:67-108 | No response, or the message "Network Error", gives NETWORK with the connectivity text and no status. Otherwise the status is kept and the message is the body message. The kind is VALIDATION iff status 400, UNAUTHORIZED iff 401, NOT_FOUND iff 404, SERVER iff 500/502/503/504, UNKNOWN iff any other status. Details are the body's `errors` for VALIDATION and absent otherwise. |
| `Api.ValidateApiResponse` | src/types/api.ts:113-123 | Fails with a SERVER error iff the input is falsy, not an object, or has a non-boolean `success`, with the message matching the failed check; otherwise returns the input unchanged. |
| `Api.ValidateAcceptsEveryResponse` | src/types/api.ts:113-123 | Every well-formed envelope passes validation and comes back as itself. |
| `CloudSync.ValidateSaveInput` | src/composables/useCloudSync.ts:52-72 | The input is accepted iff the title is not blank, the content is not blank and the title has at most 255 characters. The first failing check, in that order, determines the message. |
| `CloudSync.Complete` | src/composables/useCloudSync.ts:95-113 | After the remote call, a success clears the error, stamps `lastSyncTime` and returns the reply. A `success:false` reply records its message or the fallback, keeps `lastSyncTime` and returns the reply. A throw records the classifier's message and returns `{success:false, message}`. Loading always ends false, and the error is non-empty exactly when the response is not a success. |
| `CloudSync.SaveToCloud` | src/composables/useCloudSync.ts:77-114 | Rejected input makes no remote call, records the validation message, returns `{success:false, message}` and keeps the sync time. Accepted input makes exactly the save call and follows the protocol with the save fallback. Loading ends false and the document list is untouched. |
| `CloudSync.LoadFromCloud` | src/composables/useCloudSync.ts:119-156 | A falsy id makes no remote call and records the connectivity message. Any other id makes exactly the load call and follows the protocol with the load fallback. The document list is untouched. |
| `CloudSync.EffectiveLimit` | src/composables/useCloudSync.ts:166-168 | The limit sent is always in [1, 100]: an in-range limit is kept and any other becomes 10. |
| `CloudSync.ListCloudDocuments` | src/composables/useCloudSync.ts:161-199 | Calls the list endpoint with the clamped limit and follows the protocol with the list fallback. The document list becomes the reply's array on success and empty on a `success:false` reply or a throw. |
| `CloudSync.RefreshCloudDocuments` | src/composables/useCloudSync.ts:305-307 | Calls the list endpoint with limit 10 and follows the list protocol. The document list becomes the reply's array on success and empty on a `success:false` reply or a throw. |
| `CloudSync.OutOfRangeLimitIsDefault` | src/composables/useCloudSync.ts:166-168 | A list with any limit below 1 or above 100 is indistinguishable from a refresh. |
| `CloudSync.RemoveById` | src/composables/useCloudSync.ts:224-226 | The kept entries are exactly the entries whose id is not strictly equal to the argument, so a string id never matches a numeric one. |
| `CloudSync.RemoveByIdKeepsOrder` | src/composables/useCloudSync.ts:224-226 | Filtering distributes over concatenation, so the kept entries stay in their original relative order. |
| `CloudSync.RemoveByIdUnchangedOrIdempotent` | src/composables/useCloudSync.ts:224-226 | A list with no entry carrying the id is returned as it was, and filtering twice equals filtering once. |
| `CloudSync.DeleteFromCloud` | src/composables/useCloudSync.ts:204-245 | A falsy id makes no call and records the connectivity message. Otherwise it makes exactly the delete call and follows the protocol. Only a successful reply changes the document list, by removing the entries with that id. |
| `CloudSync.UpdateInCloud` | src/composables/useCloudSync.ts:250-300 | Title and content are validated before the id. A validation failure behaves as in save. Valid input with a falsy id records the connectivity message without a call. Otherwise it makes exactly the update call and follows the protocol. The document list is untouched. |
| `CloudSync.ClearError` | src/composables/useCloudSync.ts:45-47 | Clears the error and changes nothing else. |
| `CloudSync.MissingIdReadsAsNetworkFailure` | src/composables/useCloudSync.ts:126-131 | The error thrown for a falsy id is classified as NETWORK, and its own text "Document ID is required" is lost. |
| `CloudSync.OnlySuccessMovesSyncTime` | src/composables/useCloudSync.ts:95-104 | For every operation, `lastSyncTime` changes only when the remote call replied with success. |
| `ErrorHandler.SetError` | src/composables/useErrorHandler.ts:29-46 | A string becomes an UNKNOWN error with that message. An `ApplicationError` is stored as-is. Any other error becomes UNKNOWN with its message, or "An unexpected error occurred" when that is empty. Every such wrapped error has no status code, no details and the current time as its timestamp. Afterwards `hasError` is true and `errorMessage` is the canonical message of the stored kind. |
| `ErrorHandler.SetErrorShowsCanonicalText` | src/composables/useErrorHandler.ts:44-45 | The displayed text is always one of the canonical messages, even when a plain string was set. |
| `ErrorHandler.ClearError` | src/composables/useErrorHandler.ts:48-52 | Returns to `(null, false, '')`. |
| `ErrorHandler.HandleError` | src/composables/useErrorHandler.ts:54-77 | An `ApplicationError` is kept. An `Error` instance becomes UNKNOWN with its message, and any other value becomes UNKNOWN with its string form, including error-shaped objects. A wrapped error has no status code, no details and the current time as its timestamp. The stored error is the returned one. The log becomes the newest 100 entries of the old buffer with one ERROR entry "context: message" appended, so at most 100 entries remain, and that entry carries the error, with "Unknown operation" as the default context. |
| `ErrorHandler.ErrorShapedObjectHandledDifferently` | src/composables/useErrorHandler.ts:35-71 | For an object with a `message` that is not an `Error` instance, `setError` stores that message but `handleError` stores its string form. |
| `ErrorHandler.EmptyMessageHandledDifferently` | src/composables/useErrorHandler.ts:38-41 | An `Error` with an empty message gets the default text from `setError` but keeps the empty message through `handleError`. |
| `ErrorHandler.TransitionsKeepConsistent` | src/composables/useErrorHandler.ts:25-52 | The initial state satisfies `hasError ⇔ error ≠ null` with `errorMessage` matching the error, and `setError`, `clearError` and `handleError` preserve this. |
| `Logging.LevelValuesOrdered` | src/services/logger.ts:3-8 | DEBUG, INFO, WARN and ERROR are 0, 1, 2 and 3: distinct and increasing. |
| `Logging.Push` | src/services/logger.ts:54-59 | After an append the buffer holds at most 100 entries with the new entry last. Below the bound nothing is dropped. At the bound the oldest entry is evicted and the rest keep their order. |
| `Logging.Log` | src/services/logger.ts:45-66 | The buffer becomes the newest 100 entries of the old buffer with one new entry appended, so the new entry is last and at most 100 entries remain. That entry carries the given level, message, data, error and the clock reading. |
| `Logging.LogDebug` | src/services/logger.ts:23-25 | The buffer becomes the newest 100 entries of the old buffer with one new level-0 entry appended, so at most 100 entries remain. The new entry has the given message, data and clock reading and no attached error. |
| `Logging.LogInfo` | src/services/logger.ts:27-29 | The buffer becomes the newest 100 entries of the old buffer with one new level-1 entry appended, so at most 100 entries remain. The new entry has the given message, data and clock reading and no attached error. |
| `Logging.LogWarn` | src/services/logger.ts:31-33 | The buffer becomes the newest 100 entries of the old buffer with one new level-2 entry appended, so at most 100 entries remain. The new entry has the given message, data and clock reading and no attached error. |
| `Logging.LogError` | src/services/logger.ts:35-43 | The buffer becomes the newest 100 entries of the old buffer with one new level-3 entry appended, so at most 100 entries remain. The new entry has the given message, data and clock reading, and carries the error iff it is an `ApplicationError`. |
| `Logging.GetLogs` | src/services/logger.ts:68-70 | Returns a sequence equal to the buffer. |
| `Logging.ClearLogs` | src/services/logger.ts:72-74 | The buffer is empty afterwards. |
| `Logging.PushAllKeepsNewest` | src/services/logger.ts:54-59 | After any number of appends, the buffer is exactly the newest 100 entries of the old buffer with all the new entries appended, the oldest evicted first. |
| `Logging.ClearThenLog` | src/services/logger.ts:68-74 | After `clearLogs`, `getLogs` returns exactly the newest 100 entries logged since. |
| `Autosave.ResolveOptions` | src/composables/useThrottledAutosave.ts:13 | An absent delay defaults to 2000 and an absent `enabled` to true. Given options are kept. |
| `Autosave.Init` | src/composables/useThrottledAutosave.ts:15-17 | The snapshot starts as the initial value, with nothing pending and the first run still ahead. |
| `Autosave.AtMostOnePending` | src/composables/useThrottledAutosave.ts:33-45 | In every reachable state at most one timer is pending. |
| `Autosave.OnChange` | src/composables/useThrottledAutosave.ts:20-48 | An unchanged value, or a change after unmount, only updates the value. The first change sets the baseline and schedules nothing. A change while disabled schedules nothing. Otherwise the old timer is cancelled and exactly one fresh timer is pending. A change never saves, and a scheduling change keeps the snapshot, the first-run flag and the mounted flag. |
| `Autosave.OnFire` | src/composables/useThrottledAutosave.ts:39-45 | A timer that is not pending does nothing. The pending timer saves the current value iff it differs from the snapshot, and the snapshot then equals the current value. Only the snapshot and the fired timer's queue entry change. |
| `Autosave.OnForceSave` | src/composables/useThrottledAutosave.ts:60-70 | Disabled, it changes nothing. Enabled, it cancels the pending timer, saves the current value unconditionally and makes it the snapshot. The first-run and mounted flags are kept. |
| `Autosave.OnUnmount` | src/composables/useThrottledAutosave.ts:73-77 | Leaves no timer pending and stops reacting to changes. |
| `Autosave.Step` | src/composables/useThrottledAutosave.ts:20-77 | Every event keeps the single-slot invariant: only the most recently scheduled timer can be pending. |
| `Autosave.FiresSaveAtMostOnce` | src/composables/useThrottledAutosave.ts:39-45 | Whatever timers fire, in any order, the callback runs at most once: with the current value, only if the pending timer is among them and the value differs from the snapshot. |
| `Autosave.BurstSavesLatestOnce` | src/composables/useThrottledAutosave.ts:20-48 | A burst of changes v1→v2→v3 saves nothing by itself and leaves only the last change's timer pending. Any firing afterwards saves once, with v3, or not at all. |
| `Autosave.NoSaveAfterUnmount` | src/composables/useThrottledAutosave.ts:73-77 | After unmount, no sequence of value changes and timer firings ever calls the save callback. |
| `Autosave.ForceSaveSavesOnce` | src/composables/useThrottledAutosave.ts:60-70 | With autosave enabled, `forceSave` calls the callback exactly once, with the current value. |

## Left out

- HTTP calls (`src/lib/api` is not part of this model) and `async`/`await`: each remote call is the `Outcome` parameter, consulted only when the operation makes the call.
- Clock readings (`new Date().toISOString()`) are the parameter `now`. The timestamp of the error thrown for a missing id is never observed, so it is a fixed placeholder.
- Logging done by the cloud-sync operations (`logger.info/warn/error`) is not threaded through `CloudSync`. It changes no composable state, and the logger's own behaviour is modelled in `Logging`. `handleError`'s logging is modelled.
- Console output and the development-mode branches of the logger; `exportLogs` (`JSON.stringify`).
- The logger is a process-wide singleton in the source; here it is an explicit `Logger` value.
- Vue reactivity: `ref`s are state fields and `watch`/`onUnmounted` are explicit events. The watcher runs once per distinct value, and flush batching of several changes in one tick is not modelled. Timer delays are not modelled: a timer is pending until it fires or is cleared.
- Autosave.OnChange: values are compared by Dafny value equality, while the source compares with `Object.is` / `!==`. The two agree for strings and booleans, such as the edited text. For an object value, replacing it with an equal copy triggers a save in the source but nothing in the model.
- Autosave.OnChange: the `typeof saveFunction === 'function'` guards and the watcher that refreshes the callback are not modelled, since the callback is always a function.
- Autosave.OnForceSave: a `forceSave` after unmount still saves, as in the source.
- Api.ParseApiError: body `message`/`error` fields are modelled as optional strings. A truthy non-string value and a thrown `null` (whose property access itself throws) are not modelled.
- CloudSync.ListCloudDocuments: the limit is an integer. A `NaN` or fractional limit, which passes the range check in the source, is not modelled.
- CloudSync.ValidateSaveInput: lengths count Unicode scalar values, not UTF-16 code units, so titles with characters outside the Basic Multilingual Plane are measured differently. A `null`/`undefined` title or content is not modelled.
- Document ids are strings or integers. Non-integer numeric ids, including `NaN`, which is falsy, are not modelled.
- ErrorHandler.SetError: a `null`/`undefined` argument, on which the source's property access throws, is not modelled. A non-error value's `message` property is modelled only as an optional string.
- ErrorHandler.HandleError: `String(value)` of a non-error value is an input of the model (`NonError.shown`), not computed.
- Log entry `data` payloads are modelled as optional text.
- The optional `tags` argument of save and update, which defaults to `''`, is always passed explicitly.
- `src/lib/markdownParser.ts` is not part of this model. It is a thin wrapper over a third-party renderer, and its debounce is the same single-slot timer pattern as the autosave scheduler.
- `src/composables/useTheme.ts` (local storage, media queries, DOM attributes) and `src/main.ts` (application bootstrap) are not part of this model.

=== FILE: api.dfy ===
/**
 * The API envelope and document shapes, the HTTP-failure classifier
 * `parseAPIError`, and the envelope check `validateAPIResponse`.
 */
module Api {
  import opened Wrappers
  import opened JsText
  import opened Errors

  /** A document id as the server assigns it: a string or a number. */
  datatype DocId = StrId(s: string) | NumId(n: int)

  /** JavaScript truthiness of an id: `""` and `0` are falsy. */
  predicate IdPresent(id: DocId) {
    match id
    case StrId(s) => s != []
    case NumId(n) => n != 0
  }

  /** `CloudDocument`. */
  datatype CloudDocument = CloudDocument(
    id: DocId,
    title: string,
    content: Option<string>,
    preview: Option<string>,
    tags: Option<string>,
    createdAt: Option<string>,
    updatedAt: Option<string>)

  /** The `data` of a response: an array of documents, one document, or anything else. */
  datatype Payload = DocList(docs: seq<CloudDocument>) | SingleDoc(doc: CloudDocument) | OtherData

  /** `APIResponse`. */
  datatype ApiResponse = ApiResponse(
    success: bool,
    data: Option<Payload>,
    message: Option<string>,
    statusCode: Option<int>,
    timestamp: Option<string>)

  /** The `{ success: false, message }` object the client builds for a local failure. */
  function FailedResponse(message: string): ApiResponse {
    ApiResponse(false, None, Some(message), None, None)
  }

  /** The body of an HTTP error response (`error.response.data`). */
  datatype ErrorBody = ErrorBody(message: Option<string>, error: Option<string>, errors: Option<Details>)

  /** `error.response`: the HTTP status and the optional body. */
  datatype HttpResponse = HttpResponse(status: int, data: Option<ErrorBody>)

  /** A raw error as the HTTP layer throws it: its `message` and its optional `response`. */
  datatype RawError = RawError(message: Option<string>, response: Option<HttpResponse>)

  const NetworkErrorText := "Network Error"
  const ConnectivityMessage := "Unable to connect to server. Please check your internet connection."
  const GenericMessage := "An error occurred"

  /** The failure never reached the server, or the transport reports it did not. */
  predicate IsNetworkFailure(raw: RawError) {
    raw.message == Some(NetworkErrorText) || raw.response.None?
  }

  predicate IsServerStatus(status: int) {
    status == 500 || status == 502 || status == 503 || status == 504
  }

  /** `data?.message || data?.error || 'An error occurred'`. */
  function BodyMessage(data: Option<ErrorBody>): (m: string)
    ensures m != []
    ensures data.Some? && Truthy(data.value.message) ==> m == data.value.message.value
    ensures data.Some? && !Truthy(data.value.message) && Truthy(data.value.error) ==> m == data.value.error.value
    ensures data.None? || (!Truthy(data.value.message) && !Truthy(data.value.error)) ==> m == GenericMessage
  {
    match data
    case None => GenericMessage
    case Some(b) => OrElse(b.message, OrElse(b.error, GenericMessage))
  }

  /** `data?.errors`. */
  function BodyErrors(data: Option<ErrorBody>): Option<Details> {
    match data
    case None => None
    case Some(b) => b.errors
  }

  /** `parseAPIError`, with the constructor's clock reading as `now`. */
  function ParseApiError(raw: RawError, now: string): (e: ApplicationError)
    ensures e.timestamp == now && e.message != []
    ensures IsNetworkFailure(raw) ==>
      e.kind == NetworkError && e.message == ConnectivityMessage && e.statusCode.None? && e.details.None?
    ensures !IsNetworkFailure(raw) ==>
      e.statusCode == Some(raw.response.value.status) && e.message == BodyMessage(raw.response.value.data)
    ensures e.kind == ValidationError <==> !IsNetworkFailure(raw) && raw.response.value.status == 400
    ensures e.kind == Unauthorized <==> !IsNetworkFailure(raw) && raw.response.value.status == 401
    ensures e.kind == NotFound <==> !IsNetworkFailure(raw) && raw.response.value.status == 404
    ensures e.kind == ServerError <==> !IsNetworkFailure(raw) && IsServerStatus(raw.response.value.status)
    ensures e.kind == UnknownError <==>
      && !IsNetworkFailure(raw)
      && raw.response.value.status !in {400, 401, 404}
      && !IsServerStatus(raw.response.value.status)
    ensures e.details == (if e.kind == ValidationError then BodyErrors(raw.response.value.data) else None)
  {
    if IsNetworkFailure(raw) then
      NewApplicationError(NetworkError, ConnectivityMessage, None, None, now)
    else
      var status := raw.response.value.status;
      var data := raw.response.value.data;
      var message := BodyMessage(data);
      if status == 400 then
        NewApplicationError(ValidationError, Or(message, "Invalid input provided"), Some(status), BodyErrors(data), now)
      else if status == 401 then
        NewApplicationError(Unauthorized, Or(message, "Unauthorized access"), Some(status), None, now)
      else if status == 404 then
        NewApplicationError(NotFound, Or(message, "Resource not found"), Some(status), None, now)
      else if IsServerStatus(status) then
        NewApplicationError(ServerError, Or(message, "Server error. Please try again later."), Some(status), None, now)
      else
        NewApplicationError(UnknownError, message, Some(status), None, now)
  }

  /** The `success` field as found: a boolean, or absent / of another type. */
  datatype SuccessField = BoolValue(b: bool) | NotBool

  /**
   * An untyped value handed to `validateAPIResponse`: a falsy value, a truthy
   * non-object, or an object with the envelope's fields.
   */
  datatype RawResponse =
    | Falsy
    | NonObject
    | Envelope(success: SuccessField, data: Option<Payload>, message: Option<string>,
               statusCode: Option<int>, timestamp: Option<string>)

  /** The untyped view of a well-typed response object. */
  function AsRaw(r: ApiResponse): RawResponse {
    Envelope(BoolValue(r.success), r.data, r.message, r.statusCode, r.timestamp)
  }

  const BadFormatMessage := "Invalid response format from server"
  const MissingSuccessMessage := "Invalid response: missing success field"

  /** `validateAPIResponse`: the thrown error is the `Failure` case. */
  function ValidateApiResponse(raw: RawResponse, now: string): (r: Result<ApiResponse, ApplicationError>)
    ensures r.Success? <==> raw.Envelope? && raw.success.BoolValue?
    ensures r.Success? ==> AsRaw(r.value) == raw
    ensures r.Failure? ==> r.error.kind == ServerError && r.error.statusCode.None? && r.error.details.None?
    ensures r.Failure? ==> r.error.message == (if raw.Envelope? then MissingSuccessMessage else BadFormatMessage)
    ensures r.Failure? ==> r.error.timestamp == now
  {
    match raw
    case Falsy => Failure(NewApplicationError(ServerError, BadFormatMessage, None, None, now))
    case NonObject => Failure(NewApplicationError(ServerError, BadFormatMessage, None, None, now))
    case Envelope(success, data, message, statusCode, timestamp) =>
      match success
      case NotBool => Failure(NewApplicationError(ServerError, MissingSuccessMessage, None, None, now))
      case BoolValue(b) => Success(ApiResponse(b, data, message, statusCode, timestamp))
  }

  /** Every well-typed response passes the check and comes back unchanged. */
  lemma ValidateAcceptsEveryResponse(resp: ApiResponse, now: string)
    ensures ValidateApiResponse(AsRaw(resp), now) == Success(resp)
  {
  }
}

=== FILE: autosave.dfy ===
/**
 * The throttled autosave scheduler as an event-driven state machine.
 *
 * Events are: the watched value changes, a timer fires, `forceSave` is
 * called, the owner unmounts. The host's timer queue is part of the state
 * (`pending`, the ids of this scheduler's timers not yet fired or cleared).
 * Scheduling adds a timer to that queue without removing any, as `setTimeout`
 * does, so "at most one timer is pending" holds only because each change clears
 * the previous timer first (`CancelSlot`). Delays are not modelled: a timer
 * either is pending or fires.
 */
module Autosave {
  import opened Wrappers

  /** The options object; absent fields take their defaults. */
  datatype Options = Options(delay: Option<int>, enabled: Option<bool>)

  datatype Config = Config(delay: int, enabled: bool)

  const DefaultDelay := 2000

  /** `const { delay = 2000, enabled = true } = options`. */
  function ResolveOptions(o: Options): (c: Config)
    ensures o.delay.None? ==> c.delay == DefaultDelay
    ensures o.enabled.None? ==> c.enabled
    ensures o.delay.Some? ==> c.delay == o.delay.value
    ensures o.enabled.Some? ==> c.enabled == o.enabled.value
  {
    Config(o.delay.GetOr(DefaultDelay), o.enabled.GetOr(true))
  }

  /**
   * The scheduler: the watched value, the last saved snapshot, the first-run
   * flag, the last timer id handed out (`timeoutId`, never reset by a fire),
   * the host's pending timers, the next id the host will hand out, and whether
   * the owner is still mounted (its watcher still active).
   */
  datatype Scheduler<T> = Scheduler(
    value: T,
    lastSaved: T,
    isFirstRun: bool,
    timeoutId: Option<nat>,
    pending: set<nat>,
    nextId: nat,
    mounted: bool)

  /** Only the timer in the `timeoutId` slot can be pending, and ids are fresh. */
  ghost predicate Valid<T>(s: Scheduler<T>) {
    && (forall t :: t in s.pending ==> s.timeoutId == Some(t))
    && (s.timeoutId.Some? ==> s.timeoutId.value < s.nextId)
  }

  /** At most one timer is ever pending. */
  lemma AtMostOnePending<T>(s: Scheduler<T>)
    requires Valid(s)
    ensures |s.pending| <= 1
  {
    if s.timeoutId.Some? && s.timeoutId.value in s.pending {
      assert s.pending == {s.timeoutId.value};
    } else {
      assert s.pending == {};
    }
  }

  /** The state right after setup: the snapshot is the initial value. */
  function Init<T>(initial: T): (s: Scheduler<T>)
    ensures Valid(s) && s.pending == {} && s.isFirstRun && s.mounted
    ensures s.value == initial && s.lastSaved == initial
  {
    Scheduler(initial, initial, true, None, {}, 1, true)
  }

  datatype Event<T> = Change(v: T) | Fire(id: nat) | ForceSave | Unmount

  /** A transition's result: the new state and the value passed to the save callback, if it was called. */
  datatype Effect<T> = Effect(state: Scheduler<T>, saved: Option<T>)

  /** The host's `clearTimeout` on the slot's timer, if there is one. */
  function CancelSlot<T>(s: Scheduler<T>): (r: Scheduler<T>)
    requires Valid(s)
    ensures Valid(r) && r.pending == {}
    ensures r == s.(pending := r.pending)
  {
    if s.timeoutId.Some? then s.(pending := s.pending - {s.timeoutId.value}) else s
  }

  /** The watcher callback, run when the watched value changes to `v`. */
  function OnChange<T(==)>(cfg: Config, s: Scheduler<T>, v: T): (r: Effect<T>)
    requires Valid(s)
    ensures Valid(r.state) && r.saved.None? && r.state.value == v
    ensures v == s.value || !s.mounted ==> r.state == s.(value := v)
    ensures v != s.value && s.mounted && s.isFirstRun ==>
      r.state == s.(value := v, isFirstRun := false, lastSaved := v)
    ensures v != s.value && s.mounted && !s.isFirstRun && !cfg.enabled ==> r.state == s.(value := v)
    ensures v != s.value && s.mounted && !s.isFirstRun && cfg.enabled ==>
      && r.state.timeoutId.Some? && r.state.pending == {r.state.timeoutId.value}
      && (s.timeoutId.Some? ==> r.state.timeoutId.value != s.timeoutId.value)
      && r.state.lastSaved == s.lastSaved
      && r.state.isFirstRun == s.isFirstRun && r.state.mounted == s.mounted
  {
    if v == s.value || !s.mounted then Effect(s.(value := v), None)
    else if s.isFirstRun then Effect(s.(value := v, isFirstRun := false, lastSaved := v), None)
    else if !cfg.enabled then Effect(s.(value := v), None)
    else
      var c := CancelSlot(s);
      Effect(c.(value := v, timeoutId := Some(c.nextId), pending := c.pending + {c.nextId}, nextId := c.nextId + 1), None)
  }

  /** The host runs timer `id`: the callback saves the current value if it differs from the snapshot. */
  function OnFire<T(==)>(s: Scheduler<T>, id: nat): (r: Effect<T>)
    requires Valid(s)
    ensures Valid(r.state) && id !in r.state.pending && r.state.value == s.value
    ensures id !in s.pending ==> r == Effect(s, None)
    ensures id in s.pending && s.value != s.lastSaved ==> r.saved == Some(s.value)
    ensures id in s.pending && s.value == s.lastSaved ==> r.saved.None?
    ensures r.state.lastSaved == if id in s.pending then s.value else s.lastSaved
    ensures r.state.isFirstRun == s.isFirstRun && r.state.mounted == s.mounted
    ensures r.state.timeoutId == s.timeoutId && r.state.nextId == s.nextId
    ensures r.state.pending == s.pending - {id}
  {
    if id !in s.pending then Effect(s, None)
    else
      var f := s.(pending := s.pending - {id});
      if s.value != s.lastSaved then Effect(f.(lastSaved := s.value), Some(s.value))
      else Effect(f, None)
  }

  /** `forceSave()`: when enabled, cancel the timer and save the current value unconditionally. */
  function OnForceSave<T>(cfg: Config, s: Scheduler<T>): (r: Effect<T>)
    requires Valid(s)
    ensures Valid(r.state)
    ensures !cfg.enabled ==> r == Effect(s, None)
    ensures cfg.enabled ==>
      && r.saved == Some(s.value) && r.state.lastSaved == s.value
      && r.state.pending == {} && r.state.timeoutId.None? && r.state.value == s.value
      && r.state.isFirstRun == s.isFirstRun && r.state.mounted == s.mounted && r.state.nextId == s.nextId
  {
    if !cfg.enabled then Effect(s, None)
    else
      var c := CancelSlot(s);
      Effect(c.(timeoutId := None, lastSaved := s.value), Some(s.value))
  }

  /** The unmount hook: clear the pending timer; the owner's watcher stops with it. */
  function OnUnmount<T>(s: Scheduler<T>): (r: Scheduler<T>)
    requires Valid(s)
    ensures Valid(r) && r.pending == {} && !r.mounted
    ensures r.value == s.value && r.lastSaved == s.lastSaved
  {
    CancelSlot(s).(mounted := false)
  }

  /** One event. */
  function Step<T(==)>(cfg: Config, s: Scheduler<T>, ev: Event<T>): (r: Effect<T>)
    requires Valid(s)
    ensures Valid(r.state)
  {
    match ev
    case Change(v) => OnChange(cfg, s, v)
    case Fire(id) => OnFire(s, id)
    case ForceSave => OnForceSave(cfg, s)
    case Unmount => Effect(OnUnmount(s), None)
  }

  /** The saves made while processing `evs` in order, and the final state. */
  datatype Trace<T> = Trace(state: Scheduler<T>, saves: seq<T>)

  function Run<T(==)>(cfg: Config, s: Scheduler<T>, evs: seq<Event<T>>): (r: Trace<T>)
    requires Valid(s)
    ensures Valid(r.state)
    decreases |evs|
  {
    if evs == [] then Trace(s, [])
    else
      var e := Step(cfg, s, evs[0]);
      var rest := Run(cfg, e.state, evs[1..]);
      Trace(rest.state, (if e.saved.Some? then [e.saved.value] else []) + rest.saves)
  }

  /** A sequence of timer firings, one per id. */
  function Fires<T>(ids: seq<nat>): (evs: seq<Event<T>>)
    ensures |evs| == |ids|
    ensures forall i :: 0 <= i < |ids| ==> evs[i] == Fire(ids[i])
  {
    if ids == [] then [] else [Fire(ids[0])] + Fires(ids[1..])
  }

  /**
   * Whatever timers fire, in whatever order, at most one save happens: the
   * pending timer's, with the value current at that time, and only if that
   * value differs from the snapshot.
   */
  lemma {:induction false} FiresSaveAtMostOnce<T>(cfg: Config, s: Scheduler<T>, ids: seq<nat>)
    requires Valid(s)
    ensures Run(cfg, s, Fires(ids)).saves ==
      if (exists t :: t in s.pending && t in ids) && s.value != s.lastSaved then [s.value] else []
    decreases |ids|
  {
    if ids != [] {
      var e := OnFire(s, ids[0]);
      assert Fires<T>(ids)[1..] == Fires(ids[1..]);
      FiresSaveAtMostOnce(cfg, e.state, ids[1..]);
      if ids[0] in s.pending {
        assert e.state.pending == {};
      } else {
        assert e.state == s;
        assert forall t :: t in s.pending && t in ids ==> t in ids[1..];
      }
    }
  }

  /**
   * A burst of changes v1, v2, v3 leaves exactly one pending timer, the one
   * scheduled by the last change; however the timers then fire, the callback
   * runs at most once, with v3.
   */
  lemma BurstSavesLatestOnce<T>(cfg: Config, s: Scheduler<T>, v1: T, v2: T, v3: T, ids: seq<nat>)
    requires Valid(s) && s.mounted && !s.isFirstRun && cfg.enabled
    requires v1 != s.value && v2 != v1 && v3 != v2
    ensures var b := Run(cfg, s, [Change(v1), Change(v2), Change(v3)]);
      && b.saves == [] && b.state.value == v3
      && b.state.timeoutId.Some? && b.state.pending == {b.state.timeoutId.value}
      && Run(cfg, b.state, Fires(ids)).saves ==
           if b.state.timeoutId.value in ids && v3 != s.lastSaved then [v3] else []
  {
    var evs: seq<Event<T>> := [Change(v1), Change(v2), Change(v3)];
    var s1 := OnChange(cfg, s, v1).state;
    var s2 := OnChange(cfg, s1, v2).state;
    var s3 := OnChange(cfg, s2, v3).state;
    assert evs[1..] == [Change(v2), Change(v3)];
    assert evs[1..][1..] == [Change(v3)];
    assert Run(cfg, s3, []) == Trace(s3, []);
    assert Run(cfg, s2, [Change(v3)]) == Trace(s3, []);
    assert Run(cfg, s1, [Change(v2), Change(v3)]) == Trace(s3, []);
    assert Run(cfg, s, evs) == Trace(s3, []);
    FiresSaveAtMostOnce(cfg, s3, ids);
  }

  /** After unmount, no sequence of changes and timer firings ever saves. */
  lemma {:induction false} NoSaveAfterUnmount<T>(cfg: Config, s: Scheduler<T>, evs: seq<Event<T>>)
    requires Valid(s) && !s.mounted && s.pending == {}
    requires forall i :: 0 <= i < |evs| ==> !evs[i].ForceSave?
    ensures Run(cfg, s, evs).saves == []
    decreases |evs|
  {
    if evs != [] {
      var e := Step(cfg, s, evs[0]);
      assert e.saved.None? && !e.state.mounted && e.state.pending == {};
      NoSaveAfterUnmount(cfg, e.state, evs[1..]);
    }
  }

  /** `forceSave` with nothing pending saves the current value exactly once. */
  lemma ForceSaveSavesOnce<T>(cfg: Config, s: Scheduler<T>)
    requires Valid(s) && cfg.enabled
    ensures Run(cfg, s, [ForceSave]).saves == [s.value]
  {
  }
}

=== FILE: cloud_sync.dfy ===
/**
 * The cloud-sync composable as a state machine. Each operation is a pure
 * transition from the composable's state, the operation's arguments, the
 * outcome of the remote call and a clock reading to the new state, the
 * response handed back, and the remote call made (if any).
 */
module CloudSync {
  import opened Wrappers
  import opened JsText
  import opened Errors
  import opened Api

  /** The composable's reactive state. */
  datatype SyncState = SyncState(
    isLoading: bool,
    error: Option<string>,
    cloudDocuments: seq<CloudDocument>,
    lastSyncTime: Option<string>)

  const InitialState := SyncState(false, None, [], None)

  /** What the remote call did: answered with an envelope, or threw. */
  datatype Outcome = Replied(response: ApiResponse) | Threw(raw: RawError)

  /** The remote calls the composable can make, with their arguments. */
  datatype RemoteCall =
    | SaveCall(title: string, content: string, tags: string)
    | LoadCall(id: DocId)
    | ListCall(limit: int)
    | DeleteCall(id: DocId)
    | UpdateCall(id: DocId, title: string, content: string, tags: string)

  /** One completed operation. */
  datatype Step = Step(state: SyncState, response: ApiResponse, call: Option<RemoteCall>)

  const TitleRequired := "Document title is required"
  const ContentRequired := "Document content cannot be empty"
  const TitleTooLong := "Document title cannot exceed 255 characters"
  const MaxTitleLength := 255
  const ValidationFailed := "Validation failed"
  const IdRequired := "Document ID is required"
  const SaveFailed := "Failed to save document to cloud"
  const LoadFailed := "Failed to load document from cloud"
  const ListFailed := "Failed to fetch cloud documents"
  const DeleteFailed := "Failed to delete document from cloud"
  const UpdateFailed := "Failed to update document in cloud"
  const DefaultLimit := 10

  /** `validateSaveInput`: `None` when the input is accepted, else the message it records. */
  function ValidateSaveInput(title: string, content: string): (r: Option<string>)
    ensures r.None? <==> !Blank(title) && !Blank(content) && |title| <= MaxTitleLength
    ensures Blank(title) ==> r == Some(TitleRequired)
    ensures !Blank(title) && Blank(content) ==> r == Some(ContentRequired)
    ensures !Blank(title) && !Blank(content) && |title| > MaxTitleLength ==> r == Some(TitleTooLong)
  {
    TrimEmptyIffBlank(title);
    TrimEmptyIffBlank(content);
    if Trim(title) == [] then Some(TitleRequired)
    else if Trim(content) == [] then Some(ContentRequired)
    else if |title| > MaxTitleLength then Some(TitleTooLong)
    else None
  }

  /** The error a falsy document id raises before any remote call. */
  function MissingIdError(): RawError {
    var e := NewApplicationError(ValidationError, IdRequired, None, None, "");
    RawError(Some(e.message), None)
  }

  /** The envelope a thrown failure is turned into: `{ success: false, message }`. */
  function ThrownResponse(raw: RawError, now: string): ApiResponse {
    FailedResponse(ParseApiError(raw, now).message)
  }

  /**
   * The shared protocol of an operation once its input is accepted: what
   * `error`, `lastSyncTime`, `isLoading` and the returned response become for
   * each outcome. `cloudDocuments` is left to the operation.
   */
  ghost predicate FollowsProtocol(s: SyncState, o: Outcome, fallback: string, now: string, r: Step) {
    && !r.state.isLoading
    && (o.Replied? && o.response.success ==>
          r.state.error.None? && r.state.lastSyncTime == Some(now) && r.response == o.response)
    && (o.Replied? && !o.response.success ==>
          && r.state.error == Some(OrElse(o.response.message, fallback))
          && r.state.lastSyncTime == s.lastSyncTime && r.response == o.response)
    && (o.Threw? ==>
          && r.state.error == Some(ParseApiError(o.raw, now).message)
          && r.state.lastSyncTime == s.lastSyncTime && r.response == ThrownResponse(o.raw, now))
  }

  /** The outcome is a success exactly when the error is cleared; a failure always leaves a non-empty error. */
  ghost predicate ErrorReflectsResponse(r: Step) {
    && (r.state.error.None? <==> r.response.success)
    && (r.state.error.Some? ==> r.state.error.value != [])
  }

  /** The `try/catch/finally` tail after the call: error, sync time, loading flag, response. */
  function Complete(s: SyncState, o: Outcome, fallback: string, now: string, call: Option<RemoteCall>): (r: Step)
    requires fallback != []
    ensures FollowsProtocol(s, o, fallback, now, r)
    ensures ErrorReflectsResponse(r)
    ensures r.state.cloudDocuments == s.cloudDocuments && r.call == call
  {
    match o
    case Replied(resp) =>
      if resp.success then
        Step(s.(isLoading := false, error := None, lastSyncTime := Some(now)), resp, call)
      else
        Step(s.(isLoading := false, error := Some(OrElse(resp.message, fallback))), resp, call)
    case Threw(raw) =>
      var appError := ParseApiError(raw, now);
      Step(s.(isLoading := false, error := Some(appError.message)), FailedResponse(appError.message), call)
  }

  /** A local validation failure: recorded as the error, returned as `{ success: false, message }`. */
  function Rejected(s: SyncState, message: string): (r: Step)
    requires message != []
    ensures !r.state.isLoading && r.call.None? && ErrorReflectsResponse(r)
    ensures r.state.error == Some(message) && r.response == FailedResponse(message)
    ensures r.state.cloudDocuments == s.cloudDocuments && r.state.lastSyncTime == s.lastSyncTime
  {
    var recorded := Some(message);
    Step(s.(isLoading := false, error := recorded), FailedResponse(OrElse(recorded, ValidationFailed)), None)
  }

  /** `saveToCloud(title, content, tags)`. */
  function SaveToCloud(s: SyncState, title: string, content: string, tags: string,
                       o: Outcome, now: string): (r: Step)
    ensures ErrorReflectsResponse(r) && !r.state.isLoading
    ensures r.state.cloudDocuments == s.cloudDocuments
    ensures ValidateSaveInput(title, content).Some? ==>
      && r.call.None? && r.state.error == ValidateSaveInput(title, content)
      && r.response == FailedResponse(r.state.error.value) && r.state.lastSyncTime == s.lastSyncTime
    ensures ValidateSaveInput(title, content).None? ==>
      r.call == Some(SaveCall(title, content, tags)) && FollowsProtocol(s, o, SaveFailed, now, r)
  {
    match ValidateSaveInput(title, content)
    case Some(message) => Rejected(s, message)
    case None => Complete(s, o, SaveFailed, now, Some(SaveCall(title, content, tags)))
  }

  /** `loadFromCloud(documentId)`. */
  function LoadFromCloud(s: SyncState, id: DocId, o: Outcome, now: string): (r: Step)
    ensures ErrorReflectsResponse(r) && !r.state.isLoading
    ensures r.state.cloudDocuments == s.cloudDocuments
    ensures !IdPresent(id) ==>
      && r.call.None? && r.state.error == Some(ConnectivityMessage)
      && r.response == FailedResponse(ConnectivityMessage) && r.state.lastSyncTime == s.lastSyncTime
    ensures IdPresent(id) ==> r.call == Some(LoadCall(id)) && FollowsProtocol(s, o, LoadFailed, now, r)
  {
    if !IdPresent(id) then Complete(s, Threw(MissingIdError()), LoadFailed, now, None)
    else Complete(s, o, LoadFailed, now, Some(LoadCall(id)))
  }

  /** The limit actually sent: out-of-range values are replaced by the default. */
  function EffectiveLimit(limit: int): (l: int)
    ensures 1 <= l <= 100
    ensures 1 <= limit <= 100 ==> l == limit
    ensures !(1 <= limit <= 100) ==> l == DefaultLimit
  {
    if limit < 1 || limit > 100 then DefaultLimit else limit
  }

  /** The documents a successful list reply carries: its `data` if that is an array, else none. */
  function ListedDocuments(resp: ApiResponse): (docs: seq<CloudDocument>)
    ensures resp.data.Some? && resp.data.value.DocList? ==> docs == resp.data.value.docs
    ensures !(resp.data.Some? && resp.data.value.DocList?) ==> docs == []
  {
    match resp.data
    case Some(DocList(docs)) => docs
    case _ => []
  }

  /** `listCloudDocuments(limit)`. */
  function ListCloudDocuments(s: SyncState, limit: int, o: Outcome, now: string): (r: Step)
    ensures ErrorReflectsResponse(r)
    ensures r.call == Some(ListCall(EffectiveLimit(limit)))
    ensures FollowsProtocol(s, o, ListFailed, now, r)
    ensures r.state.cloudDocuments ==
      if o.Replied? && o.response.success then ListedDocuments(o.response) else []
  {
    var r := Complete(s, o, ListFailed, now, Some(ListCall(EffectiveLimit(limit))));
    var docs := if o.Replied? && o.response.success then ListedDocuments(o.response) else [];
    r.(state := r.state.(cloudDocuments := docs))
  }

  /** `refreshCloudDocuments()`: a list with the default limit. */
  function RefreshCloudDocuments(s: SyncState, o: Outcome, now: string): (r: Step)
    ensures r.call == Some(ListCall(DefaultLimit))
    ensures FollowsProtocol(s, o, ListFailed, now, r)
    ensures r.state.cloudDocuments ==
      if o.Replied? && o.response.success then ListedDocuments(o.response) else []
  {
    ListCloudDocuments(s, DefaultLimit, o, now)
  }

  /** An out-of-range limit behaves exactly like the default one. */
  lemma OutOfRangeLimitIsDefault(s: SyncState, limit: int, o: Outcome, now: string)
    requires limit < 1 || limit > 100
    ensures ListCloudDocuments(s, limit, o, now) == RefreshCloudDocuments(s, o, now)
  {
  }

  /** `docs.filter(doc => doc.id !== id)`: strict equality, so `StrId("1")` and `NumId(1)` differ. */
  function RemoveById(docs: seq<CloudDocument>, id: DocId): (r: seq<CloudDocument>)
    ensures |r| <= |docs|
    ensures forall d :: d in r <==> d in docs && d.id != id
  {
    if docs == [] then []
    else if docs[0].id != id then [docs[0]] + RemoveById(docs[1..], id)
    else RemoveById(docs[1..], id)
  }

  /** Filtering distributes over concatenation, so the kept entries stay in their order. */
  lemma {:induction false} RemoveByIdKeepsOrder(a: seq<CloudDocument>, b: seq<CloudDocument>, id: DocId)
    ensures RemoveById(a + b, id) == RemoveById(a, id) + RemoveById(b, id)
  {
    if a == [] {
      assert a + b == b;
    } else {
      assert (a + b)[0] == a[0];
      assert (a + b)[1..] == a[1..] + b;
      RemoveByIdKeepsOrder(a[1..], b, id);
    }
  }

  /** A list without the id is left exactly as it is; removing twice is removing once. */
  lemma {:induction false} RemoveByIdUnchangedOrIdempotent(docs: seq<CloudDocument>, id: DocId)
    ensures (forall i :: 0 <= i < |docs| ==> docs[i].id != id) ==> RemoveById(docs, id) == docs
    ensures RemoveById(RemoveById(docs, id), id) == RemoveById(docs, id)
  {
    if docs != [] {
      RemoveByIdUnchangedOrIdempotent(docs[1..], id);
      if docs[0].id != id {
        assert RemoveById(docs, id) == [docs[0]] + RemoveById(docs[1..], id);
        var rest := RemoveById(docs[1..], id);
        assert ([docs[0]] + rest)[1..] == rest;
      }
    }
  }

  /** `deleteFromCloud(documentId)`. */
  function DeleteFromCloud(s: SyncState, id: DocId, o: Outcome, now: string): (r: Step)
    ensures ErrorReflectsResponse(r) && !r.state.isLoading
    ensures !IdPresent(id) ==>
      && r.call.None? && r.state.error == Some(ConnectivityMessage)
      && r.response == FailedResponse(ConnectivityMessage)
      && r.state.cloudDocuments == s.cloudDocuments && r.state.lastSyncTime == s.lastSyncTime
    ensures IdPresent(id) ==> r.call == Some(DeleteCall(id)) && FollowsProtocol(s, o, DeleteFailed, now, r)
    ensures r.state.cloudDocuments ==
      if IdPresent(id) && o.Replied? && o.response.success then RemoveById(s.cloudDocuments, id) else s.cloudDocuments
  {
    if !IdPresent(id) then Complete(s, Threw(MissingIdError()), DeleteFailed, now, None)
    else
      var r := Complete(s, o, DeleteFailed, now, Some(DeleteCall(id)));
      if o.Replied? && o.response.success then
        r.(state := r.state.(cloudDocuments := RemoveById(s.cloudDocuments, id)))
      else r
  }

  /** `updateInCloud(documentId, title, content, tags)`: the input is checked before the id. */
  function UpdateInCloud(s: SyncState, id: DocId, title: string, content: string, tags: string,
                         o: Outcome, now: string): (r: Step)
    ensures ErrorReflectsResponse(r) && !r.state.isLoading
    ensures r.state.cloudDocuments == s.cloudDocuments
    ensures ValidateSaveInput(title, content).Some? ==>
      && r.call.None? && r.state.error == ValidateSaveInput(title, content)
      && r.response == FailedResponse(r.state.error.value) && r.state.lastSyncTime == s.lastSyncTime
    ensures ValidateSaveInput(title, content).None? && !IdPresent(id) ==>
      && r.call.None? && r.state.error == Some(ConnectivityMessage)
      && r.response == FailedResponse(ConnectivityMessage) && r.state.lastSyncTime == s.lastSyncTime
    ensures ValidateSaveInput(title, content).None? && IdPresent(id) ==>
      r.call == Some(UpdateCall(id, title, content, tags)) && FollowsProtocol(s, o, UpdateFailed, now, r)
  {
    match ValidateSaveInput(title, content)
    case Some(message) => Rejected(s, message)
    case None =>
      if !IdPresent(id) then Complete(s, Threw(MissingIdError()), UpdateFailed, now, None)
      else Complete(s, o, UpdateFailed, now, Some(UpdateCall(id, title, content, tags)))
  }

  /** `clearError()`. */
  function ClearError(s: SyncState): (r: SyncState)
    ensures r.error.None?
    ensures r.isLoading == s.isLoading && r.cloudDocuments == s.cloudDocuments && r.lastSyncTime == s.lastSyncTime
  {
    s.(error := None)
  }

  /**
   * A falsy id is reported as a connectivity failure: the locally thrown
   * VALIDATION error has no `response`, so the classifier calls it NETWORK.
   */
  lemma MissingIdReadsAsNetworkFailure(now: string)
    ensures ParseApiError(MissingIdError(), now).kind == NetworkError
    ensures ParseApiError(MissingIdError(), now).message != IdRequired
  {
  }

  /** Only a successful reply moves `lastSyncTime`; every other path keeps it. */
  lemma OnlySuccessMovesSyncTime(s: SyncState, id: DocId, title: string, content: string, tags: string,
                                 limit: int, o: Outcome, now: string)
    ensures SaveToCloud(s, title, content, tags, o, now).state.lastSyncTime != s.lastSyncTime
      ==> SaveToCloud(s, title, content, tags, o, now).response.success
    ensures LoadFromCloud(s, id, o, now).state.lastSyncTime != s.lastSyncTime
      ==> o.Replied? && o.response.success
    ensures ListCloudDocuments(s, limit, o, now).state.lastSyncTime != s.lastSyncTime
      ==> o.Replied? && o.response.success
    ensures DeleteFromCloud(s, id, o, now).state.lastSyncTime != s.lastSyncTime
      ==> o.Replied? && o.response.success
    ensures UpdateInCloud(s, id, title, content, tags, o, now).state.lastSyncTime != s.lastSyncTime
      ==> o.Replied? && o.response.success
  {
  }
}

=== FILE: error_handler.dfy ===
/**
 * The error-handler composable's state `(error, hasError, errorMessage)` and
 * its transitions `setError`, `clearError` and `handleError`.
 */
module ErrorHandler {
  import opened Wrappers
  import opened JsText
  import opened Errors
  import opened Logging

  datatype HandlerState = HandlerState(error: Option<ApplicationError>, hasError: bool, errorMessage: string)

  /** The state the composable starts in, and the one `clearError` returns to. */
  const Cleared := HandlerState(None, false, "")

  /** The three fields agree: a flag that tracks the error, and its user-facing text. */
  ghost predicate Consistent(h: HandlerState) {
    && (h.hasError <==> h.error.Some?)
    && h.errorMessage == (if h.error.Some? then UserFriendlyMessage(AppFailure(h.error.value)) else "")
  }

  const UnexpectedMessage := "An unexpected error occurred"

  /** The error `setError` stores for its argument. */
  function StoredError(err: Thrown, now: string): ApplicationError {
    match err
    case Text(s) => NewApplicationError(UnknownError, s, None, None, now)
    case AppFailure(e) => e
    case PlainError(m) => NewApplicationError(UnknownError, if m != "" then m else UnexpectedMessage, None, None, now)
    case NonError(m, _) => NewApplicationError(UnknownError, OrElse(m, UnexpectedMessage), None, None, now)
  }

  /** `setError(err)`. */
  function SetError(h: HandlerState, err: Thrown, now: string): (r: HandlerState)
    ensures Consistent(r) && r.hasError && r.error.Some?
    ensures err.AppFailure? ==> r.error.value == err.err
    ensures !err.AppFailure? ==> r.error.value.kind == UnknownError && r.error.value.statusCode.None?
    ensures !err.AppFailure? ==> r.error.value.details.None? && r.error.value.timestamp == now
    ensures err.Text? ==> r.error.value.message == err.text
    ensures err.PlainError? ==> r.error.value.message == (if err.message != "" then err.message else UnexpectedMessage)
    ensures err.NonError? ==> r.error.value.message == (if Truthy(err.messageProp) then err.messageProp.value else UnexpectedMessage)
    ensures r.errorMessage == ErrorMessage(r.error.value.kind)
  {
    var e := StoredError(err, now);
    HandlerState(Some(e), true, UserFriendlyMessage(AppFailure(e)))
  }

  /** Even a plain string is wrapped first, so the displayed text is always a canonical one. */
  lemma SetErrorShowsCanonicalText(h: HandlerState, err: Thrown, now: string)
    ensures exists k :: SetError(h, err, now).errorMessage == ErrorMessage(k)
    ensures err.Text? ==> SetError(h, err, now).errorMessage == ErrorMessage(UnknownError)
  {
    var r := SetError(h, err, now);
    assert r.errorMessage == ErrorMessage(r.error.value.kind);
  }

  /** `clearError()`. */
  function ClearError(h: HandlerState): (r: HandlerState)
    ensures Consistent(r) && !r.hasError && r.error.None? && r.errorMessage == ""
  {
    Cleared
  }

  /** Result of `handleError`: the new state, the log after it, and the returned error. */
  datatype Handled = Handled(state: HandlerState, logger: Logger, error: ApplicationError)

  const DefaultContext := "Unknown operation"

  /** The error `handleError` builds from an arbitrary thrown value. */
  function Normalize(err: Thrown, now: string): ApplicationError {
    match err
    case AppFailure(e) => e
    case PlainError(m) => NewApplicationError(UnknownError, m, None, None, now)
    case Text(s) => NewApplicationError(UnknownError, s, None, None, now)
    case NonError(_, shown) => NewApplicationError(UnknownError, shown, None, None, now)
  }

  /** `handleError(err, context)`: log, store and return one normalised error. */
  function HandleError(h: HandlerState, lg: Logger, err: Thrown, context: Option<string>, now: string): (r: Handled)
    ensures Consistent(r.state) && r.state.hasError
    ensures r.state.error == Some(r.error)
    ensures err.AppFailure? ==> r.error == err.err
    ensures !err.AppFailure? ==> r.error.kind == UnknownError && r.error.statusCode.None? && r.error.details.None?
    ensures !err.AppFailure? ==> r.error.timestamp == now
    ensures err.PlainError? ==> r.error.message == err.message
    ensures err.Text? ==> r.error.message == err.text
    ensures err.NonError? ==> r.error.message == err.shown
    ensures r.logger.logs != []
    ensures var e := r.logger.logs[|r.logger.logs| - 1];
      && e.level == Error && e.error == Some(r.error)
      && e.message == context.GetOr(DefaultContext) + ": " + r.error.message
    ensures r.logger.logs ==
      Newest(lg.logs + [LogEntry(now, Error, context.GetOr(DefaultContext) + ": " + r.error.message, None, Some(r.error))])
  {
    var appError := Normalize(err, now);
    var lg' := LogError(lg, context.GetOr(DefaultContext) + ": " + appError.message, Some(AppFailure(appError)), None, now);
    Handled(SetError(h, AppFailure(appError), now), lg', appError)
  }

  /** `setError` on an error whose message is empty: unlike `handleError`, it substitutes a default text. */
  lemma EmptyMessageHandledDifferently(h: HandlerState, lg: Logger, now: string)
    ensures SetError(h, PlainError(""), now).error.value.message == UnexpectedMessage
    ensures HandleError(h, lg, PlainError(""), None, now).error.message == ""
  {
  }

  /**
   * An error-shaped object that is not an `Error` instance: `setError` reads its
   * `message`, while `handleError` stores its `String(value)` rendering.
   */
  lemma ErrorShapedObjectHandledDifferently(h: HandlerState, lg: Logger, m: string, shown: string, now: string)
    requires m != ""
    ensures SetError(h, NonError(Some(m), shown), now).error.value.message == m
    ensures HandleError(h, lg, NonError(Some(m), shown), None, now).error.message == shown
  {
  }

  /** The handler's invariant `hasError <==> error != null` holds from the start and is kept by every transition. */
  lemma TransitionsKeepConsistent(h: HandlerState, lg: Logger, err: Thrown, context: Option<string>, now: string)
    ensures Consistent(Cleared)
    ensures Consistent(SetError(h, err, now))
    ensures Consistent(ClearError(h))
    ensures Consistent(HandleError(h, lg, err, context, now).state)
  {
  }
}

=== FILE: errors.dfy ===
/**
 * The application's error taxonomy: the closed set of error kinds, the
 * structured `ApplicationError`, its JSON form, the canonical message table
 * and the user-facing message lookup.
 */
module Errors {
  import opened Wrappers

  /** The six error kinds; a Dafny datatype is closed, so no seventh kind exists. */
  datatype ErrorType =
    | NetworkError
    | ValidationError
    | NotFound
    | Unauthorized
    | ServerError
    | UnknownError

  /** The string value each enum member carries. */
  function WireName(k: ErrorType): string {
    match k
    case NetworkError => "NETWORK_ERROR"
    case ValidationError => "VALIDATION_ERROR"
    case NotFound => "NOT_FOUND"
    case Unauthorized => "UNAUTHORIZED"
    case ServerError => "SERVER_ERROR"
    case UnknownError => "UNKNOWN_ERROR"
  }

  /** Reads an enum member back from its string value. */
  function ParseErrorType(s: string): (r: Option<ErrorType>)
    ensures r.Some? ==> WireName(r.value) == s
  {
    if s == "NETWORK_ERROR" then Some(NetworkError)
    else if s == "VALIDATION_ERROR" then Some(ValidationError)
    else if s == "NOT_FOUND" then Some(NotFound)
    else if s == "UNAUTHORIZED" then Some(Unauthorized)
    else if s == "SERVER_ERROR" then Some(ServerError)
    else if s == "UNKNOWN_ERROR" then Some(UnknownError)
    else None
  }

  /** The enum has exactly six members, told apart by their string values. */
  lemma ErrorTypeRoundTrip(k: ErrorType, s: string)
    ensures ParseErrorType(WireName(k)) == Some(k)
    ensures ParseErrorType(s) == Some(k) <==> WireName(k) == s
  {
  }

  /** `Record<string, any>` details; for HTTP 400 bodies these are field -> messages. */
  type Details = map<string, seq<string>>

  /** An `ApplicationError` instance (an `Error` subclass). */
  datatype ApplicationError = ApplicationError(
    kind: ErrorType,
    message: string,
    statusCode: Option<int>,
    details: Option<Details>,
    timestamp: string)

  /** The plain `AppError` record `toJSON` produces. */
  datatype AppError = AppError(
    kind: ErrorType,
    message: string,
    statusCode: Option<int>,
    details: Option<Details>,
    timestamp: string)

  /**
   * `new ApplicationError(type, message, statusCode, details)`; the clock reading
   * the constructor takes is the parameter `now`.
   */
  function NewApplicationError(kind: ErrorType, message: string, statusCode: Option<int>,
                               details: Option<Details>, now: string): (e: ApplicationError)
    ensures e.kind == kind && e.message == message
    ensures e.statusCode == statusCode && e.details == details
    ensures e.timestamp == now
  {
    ApplicationError(kind, message, statusCode, details, now)
  }

  /** `ApplicationError.toJSON()`. */
  function ToJson(e: ApplicationError): (j: AppError)
    ensures j.kind == e.kind && j.message == e.message
    ensures j.statusCode == e.statusCode && j.details == e.details
    ensures j.timestamp == e.timestamp
  {
    AppError(e.kind, e.message, e.statusCode, e.details, e.timestamp)
  }

  /**
   * Rebuilds an error from its JSON record with the constructor, which stamps
   * its own clock reading `now` rather than the recorded timestamp.
   */
  function FromJson(j: AppError, now: string): ApplicationError {
    NewApplicationError(j.kind, j.message, j.statusCode, j.details, now)
  }

  /**
   * `toJSON` loses nothing but the timestamp: an error rebuilt from its record
   * equals the original except for the rebuild's clock reading, and vice versa.
   */
  lemma JsonRoundTrip(e: ApplicationError, j: AppError, now: string)
    ensures FromJson(ToJson(e), now) == e.(timestamp := now)
    ensures ToJson(FromJson(j, now)) == j.(timestamp := now)
    ensures FromJson(ToJson(e), now) == e <==> now == e.timestamp
  {
  }

  /** `ERROR_MESSAGES`: the canonical user-facing message of each kind. */
  function ErrorMessage(k: ErrorType): (m: string)
    ensures m != []
  {
    match k
    case NetworkError => "Network connection failed. Please check your internet connection."
    case ValidationError => "Invalid input. Please check your data and try again."
    case NotFound => "Resource not found."
    case Unauthorized => "You are not authorized to perform this action."
    case ServerError => "Server error. Please try again later."
    case UnknownError => "An unexpected error occurred."
  }

  /** Distinct kinds have distinct canonical messages, so the message identifies the kind. */
  lemma ErrorMessagesDistinct(k1: ErrorType, k2: ErrorType)
    ensures ErrorMessage(k1) == ErrorMessage(k2) <==> k1 == k2
  {
  }

  /**
   * Anything a caller can raise or pass as an error: a string, an
   * `ApplicationError` instance, any other `Error` instance, or any other
   * value (an error-shaped object included), kept as its string `message`
   * property if it has a truthy one and its `String(value)` rendering.
   */
  datatype Thrown =
    | Text(text: string)
    | AppFailure(err: ApplicationError)
    | PlainError(message: string)
    | NonError(messageProp: Option<string>, shown: string)

  /** `getUserFriendlyMessage`. */
  function UserFriendlyMessage(f: Thrown): (m: string)
    ensures f.Text? ==> m == f.text
    ensures f.AppFailure? ==> m == ErrorMessage(f.err.kind)
    ensures !f.Text? && !f.AppFailure? ==> m == ErrorMessage(UnknownError)
  {
    match f
    case Text(s) => s
    case AppFailure(e) => if ErrorMessage(e.kind) != [] then ErrorMessage(e.kind) else e.message
    case _ => ErrorMessage(UnknownError)
  }

  /**
   * The lookup table is total, so an error's own message, status and details
   * never reach the user-facing text: only its kind does.
   */
  lemma UserMessageDependsOnlyOnKind(e1: ApplicationError, e2: ApplicationError)
    ensures UserFriendlyMessage(AppFailure(e1)) == UserFriendlyMessage(AppFailure(e2)) <==> e1.kind == e2.kind
  {
    ErrorMessagesDistinct(e1.kind, e2.kind);
  }
}

=== FILE: js_text.dfy ===
/**
 * The pieces of JavaScript string semantics the core relies on: the whitespace
 * set `String.prototype.trim` strips, trimming itself, and the truthiness of an
 * optional string as used by `a || b`.
 */
module JsText {
  import opened Wrappers

  /** ECMAScript WhiteSpace and LineTerminator code points (the set `trim` removes). */
  predicate IsWhitespace(c: char) {
    || c == '\t' || c == '\n' || c == '\U{B}' || c == '\U{C}' || c == '\r'
    || c == ' ' || c == '\U{A0}' || c == '\U{1680}'
    || ('\U{2000}' <= c <= '\U{200A}')
    || c == '\U{2028}' || c == '\U{2029}' || c == '\U{202F}' || c == '\U{205F}'
    || c == '\U{3000}' || c == '\U{FEFF}'
  }

  /** Every character of `s` is whitespace (the empty string included). */
  ghost predicate Blank(s: string) {
    forall i :: 0 <= i < |s| ==> IsWhitespace(s[i])
  }

  /** Removes the longest whitespace prefix. */
  function TrimStart(s: string): (r: string)
    ensures |r| <= |s| && r == s[|s| - |r|..]
    ensures Blank(s[..|s| - |r|])
    ensures r == [] || !IsWhitespace(r[0])
  {
    if |s| > 0 && IsWhitespace(s[0]) then
      var r := TrimStart(s[1..]);
      assert s[..|s| - |r|] == [s[0]] + s[1..][..|s| - 1 - |r|];
      r
    else s
  }

  /** Removes the longest whitespace suffix. */
  function TrimEnd(s: string): (r: string)
    ensures |r| <= |s| && r == s[..|r|]
    ensures Blank(s[|r|..])
    ensures r == [] || !IsWhitespace(r[|r| - 1])
  {
    if |s| > 0 && IsWhitespace(s[|s| - 1]) then
      var r := TrimEnd(s[..|s| - 1]);
      assert s[|r|..] == s[..|s| - 1][|r|..] + [s[|s| - 1]];
      r
    else s
  }

  /** `s.trim()`. */
  function Trim(s: string): string {
    TrimEnd(TrimStart(s))
  }

  /** A string whose trimmed form is empty is exactly an all-whitespace string. */
  lemma TrimEmptyIffBlank(s: string)
    ensures Trim(s) == [] <==> Blank(s)
  {
    var t := TrimStart(s);
    assert t[0..] == t;
    assert Blank(t) <==> t == [];
    assert t == [] ==> s[..|s| - |t|] == s;
    assert Blank(s) ==> Blank(t);
  }

  /** The JavaScript truthiness of an optional string: present and non-empty. */
  predicate Truthy(o: Option<string>) {
    o.Some? && o.value != []
  }

  /** `o || fallback` for an optional string. */
  function OrElse(o: Option<string>, fallback: string): string {
    if Truthy(o) then o.value else fallback
  }

  /** `a || b` for two strings. */
  function Or(a: string, b: string): string {
    if a != [] then a else b
  }
}

=== FILE: logging.dfy ===
/**
 * The in-memory log buffer: entries at four levels, kept to the newest
 * `MaxLogs`. The source holds one process-wide instance; here a `Logger`
 * value is passed and returned explicitly, and the clock is the parameter `now`.
 */
module Logging {
  import opened Wrappers
  import opened Errors

  datatype LogLevel = Debug | Info | Warn | Error

  /** The numeric value of each `LogLevel` member. */
  function LevelValue(l: LogLevel): (n: nat)
    ensures n <= 3
  {
    match l
    case Debug => 0
    case Info => 1
    case Warn => 2
    case Error => 3
  }

  /** Levels are numbered by increasing severity, without gaps or repeats. */
  lemma LevelValuesOrdered(a: LogLevel, b: LogLevel)
    ensures LevelValue(a) == LevelValue(b) <==> a == b
    ensures LevelValue(Debug) < LevelValue(Info) < LevelValue(Warn) < LevelValue(Error)
  {
  }

  /** A log entry; `data` stands for the free-form payload, rendered as text. */
  datatype LogEntry = LogEntry(
    timestamp: string,
    level: LogLevel,
    message: string,
    data: Option<string>,
    error: Option<ApplicationError>)

  const MaxLogs: nat := 100

  datatype Logger = Logger(logs: seq<LogEntry>)

  const EmptyLogger := Logger([])

  /** The newest `MaxLogs` elements of `xs`, in order. */
  function Newest(xs: seq<LogEntry>): (r: seq<LogEntry>)
    ensures |r| == if |xs| <= MaxLogs then |xs| else MaxLogs
    ensures r == xs[|xs| - |r|..]
  {
    if |xs| <= MaxLogs then xs else xs[|xs| - MaxLogs..]
  }

  /** `push` of one entry followed by the trim to `maxLogs`. */
  function Push(lg: Logger, e: LogEntry): (r: Logger)
    ensures |r.logs| <= MaxLogs
    ensures r.logs != [] && r.logs[|r.logs| - 1] == e
    ensures |lg.logs| < MaxLogs ==> r.logs == lg.logs + [e]
    ensures |lg.logs| >= MaxLogs ==> |r.logs| == MaxLogs && r.logs[..MaxLogs - 1] == lg.logs[|lg.logs| - MaxLogs + 1..]
  {
    var all := lg.logs + [e];
    if |all| > MaxLogs then
      var r := Logger(all[|all| - MaxLogs..]);
      assert r.logs[..MaxLogs - 1] == lg.logs[|lg.logs| - MaxLogs + 1..];
      r
    else Logger(all)
  }

  /** The private `log` method. */
  function Log(lg: Logger, level: LogLevel, message: string, data: Option<string>,
               error: Option<ApplicationError>, now: string): (r: Logger)
    ensures |r.logs| <= MaxLogs
    ensures r.logs != [] && r.logs[|r.logs| - 1] == LogEntry(now, level, message, data, error)
    ensures r.logs == Newest(lg.logs + [LogEntry(now, level, message, data, error)])
  {
    Push(lg, LogEntry(now, level, message, data, error))
  }

  /** `debug(message, data)`. */
  function LogDebug(lg: Logger, message: string, data: Option<string>, now: string): (r: Logger)
    ensures |r.logs| <= MaxLogs
    ensures r.logs != []
    ensures var e := r.logs[|r.logs| - 1]; LevelValue(e.level) == 0 && e.message == message && e.error.None?
    ensures r.logs == Newest(lg.logs + [LogEntry(now, Debug, message, data, None)])
  {
    Log(lg, Debug, message, data, None, now)
  }

  /** `info(message, data)`. */
  function LogInfo(lg: Logger, message: string, data: Option<string>, now: string): (r: Logger)
    ensures |r.logs| <= MaxLogs
    ensures r.logs != []
    ensures var e := r.logs[|r.logs| - 1]; LevelValue(e.level) == 1 && e.message == message && e.error.None?
    ensures r.logs == Newest(lg.logs + [LogEntry(now, Info, message, data, None)])
  {
    Log(lg, Info, message, data, None, now)
  }

  /** `warn(message, data)`. */
  function LogWarn(lg: Logger, message: string, data: Option<string>, now: string): (r: Logger)
    ensures |r.logs| <= MaxLogs
    ensures r.logs != []
    ensures var e := r.logs[|r.logs| - 1]; LevelValue(e.level) == 2 && e.message == message && e.error.None?
    ensures r.logs == Newest(lg.logs + [LogEntry(now, Warn, message, data, None)])
  {
    Log(lg, Warn, message, data, None, now)
  }

  /** `error(message, error, data)`: only an `ApplicationError` is attached to the entry. */
  function LogError(lg: Logger, message: string, error: Option<Thrown>, data: Option<string>, now: string): (r: Logger)
    ensures |r.logs| <= MaxLogs
    ensures r.logs != []
    ensures var e := r.logs[|r.logs| - 1];
      && LevelValue(e.level) == 3 && e.message == message
      && (e.error.Some? <==> error.Some? && error.value.AppFailure?)
      && (e.error.Some? ==> e.error.value == error.value.err)
    ensures r.logs == Newest(lg.logs + [LogEntry(now, Error, message, data,
                                        if error.Some? && error.value.AppFailure? then Some(error.value.err) else None)])
  {
    var attached := if error.Some? && error.value.AppFailure? then Some(error.value.err) else None;
    Log(lg, Error, message, data, attached, now)
  }

  /** `getLogs()`: a copy of the buffer. */
  function GetLogs(lg: Logger): (r: seq<LogEntry>)
    ensures r == lg.logs
  {
    lg.logs
  }

  /** `clearLogs()`. */
  function ClearLogs(lg: Logger): (r: Logger)
    ensures GetLogs(r) == []
  {
    EmptyLogger
  }

  /** Pushes the entries of `es` one after another, oldest first. */
  function PushAll(lg: Logger, es: seq<LogEntry>): Logger
  {
    if es == [] then lg else Push(PushAll(lg, es[..|es| - 1]), es[|es| - 1])
  }

  lemma NewestAppend(xs: seq<LogEntry>, e: LogEntry)
    ensures Newest(Newest(xs) + [e]) == Newest(xs + [e])
  {
    var n := Newest(xs);
    if |xs| > MaxLogs {
      assert (n + [e])[1..] == (xs + [e])[|xs| + 1 - MaxLogs..];
    }
  }

  /**
   * However many entries are logged, the buffer holds exactly the newest
   * `MaxLogs` of everything logged since it was last empty-or-within-bounds,
   * oldest evicted first.
   */
  lemma {:induction false} PushAllKeepsNewest(lg: Logger, es: seq<LogEntry>)
    requires |lg.logs| <= MaxLogs
    ensures GetLogs(PushAll(lg, es)) == Newest(lg.logs + es)
  {
    if es == [] {
      assert lg.logs + es == lg.logs;
    } else {
      var init := es[..|es| - 1];
      var e := es[|es| - 1];
      var before := PushAll(lg, init);
      PushAllKeepsNewest(lg, init);
      assert before.logs == Newest(lg.logs + init);
      assert PushAll(lg, es) == Push(before, e);
      NewestAppend(lg.logs + init, e);
      assert lg.logs + init + [e] == lg.logs + es;
    }
  }

  /** After `clearLogs`, the buffer holds exactly what was logged since, up to the bound. */
  lemma ClearThenLog(lg: Logger, es: seq<LogEntry>)
    ensures GetLogs(PushAll(ClearLogs(lg), es)) == Newest(es)
  {
    PushAllKeepsNewest(ClearLogs(lg), es);
    assert [] + es == es;
  }
}

=== FILE: wrappers.dfy ===
/** Optional values and results, used for the source's `undefined` fields and thrown errors. */
module Wrappers {

  /** A value that may be absent (`undefined` / `null` in the source). */
  datatype Option<+T> = None | Some(value: T) {
    function GetOr(default: T): T {
      match this
      case Some(v) => v
      case None => default
    }
  }

  /** Either a value or the error an operation throws. */
  datatype Result<+R, +E> = Success(value: R) | Failure(error: E)
}
